=== FILE: README.md ===
# iap_proxy request-forwarding core, in Dafny

A model of the forwarding logic of `iap_proxy`, a small Go HTTP proxy. The
proxy forwards every request it receives to one backend that sits behind an
identity-aware access gateway. It attaches a bearer token and strips the
hop-by-hop headers on the way out. It folds the client address into
`X-Forwarded-For`, and it relays the backend's answer back to the caller.

The model is functional. A header is Go's `http.Header`: a
`map<string, seq<string>>` from name to values. `Add`, `Set` and `Del`
canonicalise the name they are given, and indexing the map does not. The
invariant `WellFormed` says that every key is canonical.

Modules:

- `Wrappers`: `Option`, used for the client IP that may fail to parse.
- `Strings`: ASCII case mapping, the case-variant relation
  `SameIgnoringCase`, and Go's `strings.Join`.
- `Canon`: `Canonical`, Go's canonical MIME header key. It upper-cases the
  first letter and each letter after `-`, and lower-cases every other letter.
  A name holding a byte that is not an RFC 7230 token character comes back
  unchanged.
- `HttpHeader`: the `Header` type, `WellFormed`, `Values`, and the methods
  `Add`, `Set` and `Del`.
- `HeaderNames`: the hop-by-hop list of main.go:20-29, the corrected list
  (see Findings), `X-Forwarded-For`, `Authorization`, and the spelling facts
  about them.
- `Sanitizer`: `delHopHeaders`, `appendHostToXForwardHeader` and
  `copyHeader`.
- `Proxy`: `ServeHTTP`, split into the request rewrite (`RewriteRequest`) and
  the response relay (`RelayResponse`). Both take the hop-by-hop list as a
  parameter. Their lemmas hold for any list of canonical names that has
  neither `Authorization` nor `X-Forwarded-For` on it (`StripList`); the
  relay needs only the names to be canonical. `ServeHttp` is the handler as written: it passes the
  source's eight names. `ServeHttpCorrected` is the same handler with the
  corrected list (see Findings).

`copyHeader` is a method with loops, as in the source. It visits the source
keys in an order the model leaves open (`var k :| k in todo`), because Go's
map iteration order is unspecified. Its exact result is stated for a source
whose keys are canonical. Go's HTTP client canonicalises the keys of every
response it reads, and with canonical keys the visiting order cannot change
the result.

Four behaviours of the code that are easy to misread:

- Only `URL.Host` and `URL.Scheme` are rewritten (main.go:73-74).
  `Request.Host`, the Host header the request arrived with, is kept
  (`RewriteRequest` states `r.host == req.host`). Go's client sends that
  value, so the backend sees the proxy's own host name, not its own.
- A dispatch error writes status 500 (main.go:88) and then calls `log.Fatal`
  (main.go:89), which ends the whole process. The model keeps only the 500
  answer (see Left out).
- A caller's own `Authorization` values are kept, and the bearer credential
  is added after them (main.go:77).
- The handler strips the hop-by-hop list exactly as main.go:20-29 spells it,
  `"Trailers"` included. So in `ServeHttp` the header map handed to the HTTP
  client keeps a `Trailer` key, and the writer's header map receives the
  backend's `Trailer` values (see Findings).

An `X-Forwarded-For` key that is present but holds no values still takes the
"prior" branch of main.go:54. The folded value then starts with `", "`.
`ForwardedForChain` states this case.

## Model

| member | source | states |
|---|---|---|
| Strings.JoinSnoc | main.go:55 | joining one more element onto a non-empty list appends `sep` and that element, so `Join(prior, ", ") + ", " + host` is the join of the whole chain |
| Canon.CaseVariantsShareCanonical | main.go:44-48 | two case variants of a token have the same canonical form, and a canonical name is the only canonical one among its case variants |
| Canon.CanonicalIdempotent | main.go:36-58 | canonicalising a canonical name gives the same name back, so keys written by `Add`/`Set` stay canonical |
| Canon.CanonicalChars | main.go:25 | in a token each character is upper-case when it starts a word (first, or after `-`) and lower-case otherwise, so `TE` becomes `Te`; a name with a non-token byte is unchanged; the length is kept |
| Canon.CanonFromIsCaseVariant | main.go:44-48 | the canonicalising scan keeps length and token-ness and changes only letter case |
| HttpHeader.Add | main.go:39 | `Add` appends the value at the end of the canonical key's values and changes no other key |
| HttpHeader.Set | main.go:57 | `Set` leaves exactly `[v]` under the canonical key and changes no other key |
| HttpHeader.Del | main.go:46 | `Del` removes the canonical key and changes no other key or value |
| HttpHeader.UpdatesKeepWellFormed | main.go:36-58 | `Add`, `Set` and `Del` keep every key of a well-formed header canonical |
| HeaderNames.HopHeadersCanonical | main.go:20-29 | each of the eight hop-by-hop names is canonical, so `Del` removes exactly that key |
| HeaderNames.TeIsCanonicalTE | main.go:25 | `"Te"` is the canonical form of `"TE"` |
| Sanitizer.DelAll | main.go:45-47 | deleting the names one after another removes exactly the set of their canonical forms |
| Sanitizer.DelHopHeaders | main.go:44-48 | none of the eight hop-by-hop names is left; a key survives if and only if it was present and is not on the list; survivors keep their value sequences; canonical keys stay canonical |
| Sanitizer.DelHopHeadersIdempotent | main.go:44-48 | stripping hop-by-hop headers twice gives the same header as stripping once |
| Sanitizer.NoHopHeaderVariantRemains | main.go:20-29 | in a well-formed header, after stripping, no key is a case variant of any hop-by-hop name |
| Sanitizer.AppendHostToXForwardHeader | main.go:50-58 | exactly one `X-Forwarded-For` value remains; with no prior key it is `host` alone; every other key keeps its presence and values |
| Sanitizer.ForwardedForChain | main.go:54-57 | with prior values `v1..vn` the one value is `Join([v1..vn, host], ", ")`, so multiple instances are folded into one chain ending in `host`; a present but empty prior gives `", " + host` |
| Sanitizer.ForwardedForMultiInstanceExample | main.go:54-57 | prior instances `10.0.0.1` and `10.0.0.2` with client `203.0.113.5` fold to `10.0.0.1, 10.0.0.2, 203.0.113.5` |
| Sanitizer.AddEach | main.go:38-40 | `Add`ing the values of one key in order equals appending the whole value sequence under its canonical key |
| Sanitizer.CopyHeader | main.go:36-42 | no destination value is lost or reordered, and every non-empty source key ends up present; with canonical source keys every key maps to `dst[k] ++ src[k]` and nothing else is added |
| Sanitizer.DelHopHeadersCorrected | main.go:20-29 | the corrected stripping leaves none of the nine names (the eight plus `Trailer`) and keeps every other key unchanged |
| Sanitizer.CorrectedOnlyAddsTrailer | main.go:20-29 | the corrected stripping keeps exactly what the source's keeps, except `Trailer` |
| Sanitizer.TrailerPassesThroughAsWritten | main.go:26 | a `Trailer` key survives the source's `delHopHeaders` and is removed by the corrected one |
| Proxy.AttachToken | main.go:77 | `Authorization` ends with `"Bearer " + token` after the caller's own values, and no other key changes |
| Proxy.SanitizeOutbound | main.go:79-83 | no name of the stripped list is left; `X-Forwarded-For` is untouched without a client IP and holds one value with one (`[ip]` when there was none); every other header keeps its presence and values |
| Proxy.RewriteRequest | main.go:72-74 | URL scheme and host become the backend's, `RequestURI` is cleared, and method, Host, path, query, body and remote address are unchanged |
| Proxy.RewriteAttachesToken | main.go:77-79 | the outbound `Authorization` is the caller's values followed by `"Bearer " + token`; stripping hop-by-hop headers does not remove it |
| Proxy.RewriteStripsHopHeaders | main.go:79 | no name of the stripped hop-by-hop list is a key of the outbound header |
| Proxy.RewriteForwardedFor | main.go:81-83 | without a client IP `X-Forwarded-For` is untouched; with one it holds exactly one value: `[ip]` with no prior key, the folded chain `Join(prior + [ip], ", ")` with prior values, and `", " + ip` when the prior key held no values |
| Proxy.RewriteKeepsOtherHeaders | main.go:72-83 | every header other than `Authorization`, `X-Forwarded-For` and the stripped hop-by-hop ones keeps its presence and values; with the source's list this includes `Trailer` |
| Proxy.RewriteKeepsWellFormed | main.go:72-83 | the rewrite keeps all header keys canonical |
| Proxy.RelayResponse | main.go:86-98 | a dispatch error gives status 500 and the error body; otherwise the backend's status and body pass through, the writer keeps its own values, no value of a stripped name comes from the backend, and every other backend value is appended |
| Proxy.RelayedHopHeaders | main.go:95-97 | after stripping and copying, each key of the stripped list holds exactly what the writer already held |
| Proxy.RelayedEndToEndHeaders | main.go:95-97 | after stripping and copying, each key not on the stripped list holds the writer's values followed by the backend's |
| Proxy.ServeHttp | main.go:65-100 | over the source's eight names, the request handed to the HTTP client meets every promise of lines 72-83 (`RewrittenAs`: backend target, cleared `RequestURI`, method, Host, path, query, body and remote address kept, bearer credential after the caller's `Authorization`, no hop-by-hop name, `X-Forwarded-For` folded, every other header kept) and the answer meets every promise of lines 86-98 (`RelayedAs`: 500 with the error body and the writer's headers on a dispatch error, else the backend's status and body, the writer's values kept, non-hop backend values appended); the map handed to the client keeps `Trailer` as it was, and the writer's map receives the backend's `Trailer` values |
| Proxy.ServeHttpCorrected | main.go:65-100 | the same promises over the corrected list; in addition no `Trailer` key is in the map handed to the HTTP client, and no backend `Trailer` value reaches the writer's map |
| Proxy.RewriteMeetsPromises | main.go:72-83 | the rewrite meets every promise of lines 72-83 at once, for any list of canonical names without `Authorization` and `X-Forwarded-For` |
| Proxy.RelayExample | main.go:95-99 | a 201 answer with `X-Custom: v` and `Transfer-Encoding: chunked` is written as 201 with `X-Custom: v` and no `Transfer-Encoding` in the writer's header map, and the same body |

## Findings

| source | as written | input that shows it | evidently intended | confidence | as-written member | corrected member |
|---|---|---|---|---|---|---|
| main.go:26 | the hop-by-hop list names `"Trailers"`, copying a known erratum in section 13.5.1 of RFC 2616 (erratum 4522) | an inbound header map `{Trailer: [Expires]}` still holds that key after `delHopHeaders`, so it is in the map handed to the HTTP client; a backend map with `Trailer` has its values copied into the writer's map | strip the hop-by-hop header `Trailer` (section 14.40 of RFC 2616) | medium, not executed | Sanitizer.TrailerPassesThroughAsWritten | Sanitizer.DelHopHeadersCorrected |

The corrected list is the source's eight names plus `Trailer`.
`Sanitizer.CorrectedOnlyAddsTrailer` proves that this is the only difference.
The handler as written, `Proxy.ServeHttp`, strips the source's list. So a
`Trailer` key stays in the header map handed to the HTTP client, and the
backend's `Trailer` values reach the writer's header map. `Proxy.ServeHttpCorrected` is the handler over
the corrected list.

## Left out

- Keyring opening and credential import (main.go:31-34, 126-144): these call the operating system's secret store through an external library.
- `main` (main.go:102-168): flag parsing, environment variables, `url.Parse`, and `ListenAndServe`. The token comes from `newIAP`/`GetToken`, which are defined in a file that is not part of this model. The token and the backend URL are inputs (`Config`).
- What Go's HTTP client and server do with the header maps on the wire: the model ends at the map handed to `client.Do` and the writer's map. Go's library treats some keys, `Trailer` among them, specially when it writes or reads a message, so a `Trailer` key in these maps is not a claim about the bytes sent.
- The network round trip `client.Do` (main.go:86): its result is an input, `DispatchResult`, that is `Ok(response)` or `Err`.
- Body streaming with `io.Copy` and `resp.Body.Close` (main.go:91, 99): the body is modelled as its full contents, passed through unchanged. Partial writes, and the bounded memory use of streaming, are not modelled.
- `log.Fatal` on a dispatch error (main.go:89) and all logging: ending the process is not modelled. In the source the process exits right after `http.Error`, so the 500 answer may never reach the caller.
- The headers `http.Error` sets (`Content-Type`, `X-Content-Type-Options`): they are library behaviour and version-dependent. The model's error answer is status 500, the body `"Server Error\n"`, and the writer's header map unchanged, so it has none of these headers.
- `net.SplitHostPort` (main.go:81): its result is the input `clientIP : Option<string>`.
- Canonicalisation of names with non-token bytes: `Canonical` returns them unchanged, as Go does. Two case variants of such a name stay distinct keys (`Canon.NonTokenVariantsStayApart`).
- The fields of `url.URL` other than scheme, host, path and raw query.
- Concurrency: the handler keeps no shared mutable state, so each request is modelled on its own.
- Sanitizer.CopyHeader: the exact per-key result is stated only for a source with canonical keys. With non-canonical keys the result depends on Go's map iteration order.
- Proxy.RelayResponse: the hop-by-hop and per-key statements assume canonical backend header keys, which Go's client produces.

=== FILE: canon.dfy ===
/**
 * Canonical header keys, as Go's `textproto.CanonicalMIMEHeaderKey`
 * computes them: the first letter and every letter after a hyphen is
 * upper-cased, every other letter lower-cased. A key holding a byte that
 * is not a token character is returned unchanged.
 */
module Canon {
  import opened Strings

  /** The token characters of section 3.2.6 of RFC 7230, the bytes a header name may hold. */
  predicate IsTokenChar(c: char)
  {
    || ('a' <= c <= 'z')
    || ('A' <= c <= 'Z')
    || ('0' <= c <= '9')
    || c in "!#$%&'*+-.^_`|~"
  }

  predicate IsToken(s: string)
  {
    forall i :: 0 <= i < |s| ==> IsTokenChar(s[i])
  }

  /**
   * The case-normalising scan over a token: `upper` says whether the next
   * character starts a word (the first one, or the one after a hyphen).
   */
  function CanonFrom(s: string, upper: bool): (r: string)
    decreases |s|
  {
    if |s| == 0 then ""
    else
      var c := CaseAt(s[0], upper);
      [c] + CanonFrom(s[1..], c == '-')
  }

  /** The scan only changes the case of letters: it keeps length, letters and token-ness. */
  lemma {:induction false} CanonFromIsCaseVariant(s: string, upper: bool)
    ensures |CanonFrom(s, upper)| == |s|
    ensures SameIgnoringCase(CanonFrom(s, upper), s)
    ensures IsToken(s) ==> IsToken(CanonFrom(s, upper))
    decreases |s|
  {
    if |s| > 0 {
      var c := CaseAt(s[0], upper);
      UpperOfLower(s[0]);
      CanonFromIsCaseVariant(s[1..], c == '-');
      var r := CanonFrom(s, upper);
      assert r == [c] + CanonFrom(s[1..], c == '-');
      forall i | 1 <= i < |s|
        ensures LowerChar(r[i]) == LowerChar(s[i]) && (IsTokenChar(s[i]) ==> IsTokenChar(r[i]))
      {
        assert r[i] == CanonFrom(s[1..], c == '-')[i - 1];
        assert s[i] == s[1..][i - 1];
      }
    }
  }

  /**
   * The canonical form of a header name: a token with the case of its
   * letters normalised (`CanonicalChars` says how), any other name as it is.
   */
  function Canonical(name: string): (r: string)
  {
    if IsToken(name) then CanonFrom(name, true) else name
  }

  /**
   * Character by character: in a token each character is in the case its
   * position calls for, upper when it starts a word (the first, or one
   * after a hyphen) and lower otherwise; any other name is left as it is.
   */
  lemma CanonicalChars(name: string)
    ensures |Canonical(name)| == |name|
    ensures IsToken(name) ==> forall i :: 0 <= i < |name| ==> Canonical(name)[i] == CaseAt(name[i], StartsWord(name, i))
    ensures !IsToken(name) ==> Canonical(name) == name
  {
    CanonFromAt(name, true);
  }

  /** Casing a character leaves a hyphen a hyphen and makes no hyphen of anything else. */
  lemma CaseKeepsHyphen(c: char, starts: bool)
    ensures CaseAt(c, starts) == '-' <==> c == '-'
  {
  }

  /** Character `i` of the scan's output is `s[i]`, cased by whether it starts a word. */
  lemma {:induction false} CanonFromAt(s: string, upper: bool)
    ensures |CanonFrom(s, upper)| == |s|
    ensures forall i :: 0 < i < |s| ==> CanonFrom(s, upper)[i] == CaseAt(s[i], s[i - 1] == '-')
    ensures |s| > 0 ==> CanonFrom(s, upper)[0] == CaseAt(s[0], upper)
    decreases |s|
  {
    if |s| > 0 {
      var c := CaseAt(s[0], upper);
      CanonFromAt(s[1..], c == '-');
      CaseKeepsHyphen(s[0], upper);
      var r := CanonFrom(s, upper);
      assert r == [c] + CanonFrom(s[1..], c == '-');
      forall i | 0 < i < |s|
        ensures r[i] == CaseAt(s[i], s[i - 1] == '-')
      {
        assert r[i] == CanonFrom(s[1..], c == '-')[i - 1];
        assert s[1..][i - 1] == s[i];
        if i > 1 {
          assert s[1..][i - 2] == s[i - 1];
        }
      }
    }
  }

  /** A name that canonicalisation leaves as it is. */
  predicate IsCanonical(name: string)
  {
    Canonical(name) == name
  }

  /** The case the scan gives a character, given whether it starts a word. */
  function CaseAt(c: char, starts: bool): (r: char)
  {
    if starts then UpperChar(c) else LowerChar(c)
  }

  /** Whether the character at index `i` starts a word: it is first, or follows a hyphen. */
  predicate StartsWord(s: string, i: nat)
    requires i < |s|
  {
    i == 0 || s[i - 1] == '-'
  }

  /**
   * From index `i` on, the string is already in the case the scan would
   * give it: each letter that starts a word upper-case, every other letter
   * lower-case.
   */
  predicate CasedFrom(s: string, i: nat)
    requires i <= |s|
    decreases |s| - i
  {
    i == |s| || (s[i] == CaseAt(s[i], StartsWord(s, i)) && CasedFrom(s, i + 1))
  }

  /** The scan leaves a suffix that is already cased as it would case it. */
  lemma {:induction false} CanonFromFixed(s: string, i: nat)
    requires i <= |s| && CasedFrom(s, i)
    ensures i < |s| ==> CanonFrom(s[i..], StartsWord(s, i)) == s[i..]
    decreases |s| - i
  {
    if i < |s| {
      CanonFromFixed(s, i + 1);
      assert s[i..][1..] == s[i + 1..];
      assert s[i..] == [s[i]] + s[i + 1..];
    }
  }

  /** A token cased word by word is canonical. */
  lemma CanonicalWhenCased(name: string)
    requires |name| > 0 && IsToken(name) && CasedFrom(name, 0)
    ensures IsCanonical(name)
  {
    CanonFromFixed(name, 0);
    assert name[0..] == name;
  }

  /** Re-running the scan over its own output changes nothing. */
  lemma {:induction false} CanonFromIdempotent(s: string, upper: bool)
    ensures CanonFrom(CanonFrom(s, upper), upper) == CanonFrom(s, upper)
    decreases |s|
  {
    if |s| > 0 {
      var c := CaseAt(s[0], upper);
      UpperOfLower(s[0]);
      var t := CanonFrom(s, upper);
      assert t[0] == c && t[1..] == CanonFrom(s[1..], c == '-');
      CanonFromIdempotent(s[1..], c == '-');
    }
  }

  /** The scan sees a character only through its folded form. */
  lemma {:induction false} CanonFromCaseBlind(a: string, b: string, upper: bool)
    requires SameIgnoringCase(a, b)
    ensures CanonFrom(a, upper) == CanonFrom(b, upper)
    decreases |a|
  {
    if |a| > 0 {
      UpperOfLower(a[0]);
      UpperOfLower(b[0]);
      var ca := CaseAt(a[0], upper);
      var cb := CaseAt(b[0], upper);
      assert LowerChar(a[0]) == LowerChar(b[0]);
      assert ca == cb;
      assert SameIgnoringCase(a[1..], b[1..]) by {
        forall i | 0 <= i < |a| - 1
          ensures LowerChar(a[1..][i]) == LowerChar(b[1..][i])
        {
          assert LowerChar(a[i + 1]) == LowerChar(b[i + 1]);
        }
      }
      CanonFromCaseBlind(a[1..], b[1..], ca == '-');
    }
  }

  /** Case variants agree on being tokens. */
  lemma TokenCaseBlind(a: string, b: string)
    requires SameIgnoringCase(a, b)
    ensures IsToken(a) <==> IsToken(b)
  {
    forall i | 0 <= i < |a|
      ensures IsTokenChar(a[i]) <==> IsTokenChar(b[i])
    {
      assert LowerChar(a[i]) == LowerChar(b[i]);
    }
  }

  /** Canonicalising a canonical name gives that name back. */
  lemma CanonicalIdempotent(name: string)
    ensures IsCanonical(Canonical(name))
  {
    if IsToken(name) {
      CanonFromIdempotent(name, true);
    }
  }

  /**
   * Every case variant of a token canonicalises to the same key, and that key
   * is the one canonical name among them: this is why a header map whose keys
   * are all canonical cannot hold two case variants of one token. (A name
   * with a non-token byte is left as it is, so its case variants stay apart.)
   */
  lemma CaseVariantsShareCanonical(a: string, b: string)
    ensures SameIgnoringCase(a, b) && IsToken(a) ==> Canonical(a) == Canonical(b)
    ensures SameIgnoringCase(a, b) && IsToken(b) && IsCanonical(a) && IsCanonical(b) ==> a == b
  {
    if SameIgnoringCase(a, b) {
      TokenCaseBlind(a, b);
      if IsToken(a) {
        CanonFromCaseBlind(a, b, true);
      }
    }
  }

  /** Two case variants of a name that is not a token, each its own canonical form. */
  lemma NonTokenVariantsStayApart()
    ensures SameIgnoringCase("x y", "X y")
    ensures IsCanonical("x y") && IsCanonical("X y") && "x y" != "X y"
  {
    assert !IsTokenChar("x y"[1]);
    assert !IsTokenChar("X y"[1]);
  }
}

=== FILE: http_header.dfy ===
/**
 * Go's `http.Header`: a map from header name to the sequence of its values,
 * with the `Add`, `Set` and `Del` methods, each of which canonicalises the
 * name it is given. Indexing the map directly does not canonicalise.
 */
module HttpHeader {
  import opened Canon

  type Header = map<string, seq<string>>

  /** The invariant the proxy relies on: every key is in canonical form. */
  predicate WellFormed(h: Header)
  {
    forall k :: k in h ==> IsCanonical(k)
  }

  /** The values under exactly `key`, empty when the key is absent. */
  function Values(h: Header, key: string): (r: seq<string>)
  {
    if key in h then h[key] else []
  }

  /** `h.Add(name, v)`: appends `v` to the values of the canonical name. */
  function Add(h: Header, name: string, v: string): (r: Header)
    ensures Canonical(name) in r && r[Canonical(name)] == Values(h, Canonical(name)) + [v]
    ensures forall k :: k != Canonical(name) ==> (k in r <==> k in h)
    ensures forall k :: k in h && k != Canonical(name) ==> r[k] == h[k]
  {
    var key := Canonical(name);
    h[key := Values(h, key) + [v]]
  }

  /** `h.Set(name, v)`: replaces every value of the canonical name by `v` alone. */
  function Set(h: Header, name: string, v: string): (r: Header)
    ensures Canonical(name) in r && r[Canonical(name)] == [v]
    ensures forall k :: k != Canonical(name) ==> (k in r <==> k in h)
    ensures forall k :: k in h && k != Canonical(name) ==> r[k] == h[k]
  {
    h[Canonical(name) := [v]]
  }

  /** `h.Del(name)`: removes the canonical name and its values. */
  function Del(h: Header, name: string): (r: Header)
    ensures Canonical(name) !in r
    ensures forall k :: k != Canonical(name) ==> (k in r <==> k in h)
    ensures forall k :: k in r ==> r[k] == h[k]
  {
    h - {Canonical(name)}
  }

  /** `Add`, `Set` and `Del` only ever introduce canonical keys. */
  lemma UpdatesKeepWellFormed(h: Header, name: string, v: string)
    ensures WellFormed(h) ==> WellFormed(Add(h, name, v))
    ensures WellFormed(h) ==> WellFormed(Set(h, name, v))
    ensures WellFormed(h) ==> WellFormed(Del(h, name))
  {
    CanonicalIdempotent(name);
  }
}

=== FILE: names.dfy ===
/**
 * The header names the proxy handles by name (main.go:20-29, 54-57, 77),
 * and the facts about their spelling that the rest of the model needs.
 */
module HeaderNames {
  import opened Canon

  /**
   * The hop-by-hop headers of section 13.5.1 of RFC 2616, in the order the
   * proxy deletes them; "Te" is how `TE` is spelled once canonicalised.
   */
  const HopHeaders: seq<string> := [
    "Connection",
    "Keep-Alive",
    "Proxy-Authenticate",
    "Proxy-Authorization",
    "Te",
    "Trailers",
    "Transfer-Encoding",
    "Upgrade"
  ]

  /**
   * The hop-by-hop list with the header RFC 2616 means by "Trailers" added:
   * the header field is `Trailer` (section 14.40 of RFC 2616), and the
   * plural in section 13.5.1 is a known erratum of that RFC.
   */
  const CorrectedHopHeaders: seq<string> := HopHeaders + [TrailerName]

  const TrailerName: string := "Trailer"
  const ForwardedFor: string := "X-Forwarded-For"
  const AuthorizationName: string := "Authorization"

  /** Each hop-by-hop name is already canonical, so `Del` removes exactly that key. */
  lemma HopHeadersCanonical()
    ensures forall i :: 0 <= i < |HopHeaders| ==> IsCanonical(HopHeaders[i])
  {
    forall i | 0 <= i < |HopHeaders|
      ensures IsCanonical(HopHeaders[i])
    {
      if i == 0 {
        assert HopHeaders[i] == "Connection";
        ConnectionCanonical();
      } else if i == 1 {
        assert HopHeaders[i] == "Keep-Alive";
        KeepAliveCanonical();
      } else if i == 2 {
        assert HopHeaders[i] == "Proxy-Authenticate";
        ProxyAuthenticateCanonical();
      } else if i == 3 {
        assert HopHeaders[i] == "Proxy-Authorization";
        ProxyAuthorizationCanonical();
      } else if i == 4 {
        assert HopHeaders[i] == "Te";
        TeCanonical();
      } else if i == 5 {
        assert HopHeaders[i] == "Trailers";
        TrailersCanonical();
      } else if i == 6 {
        assert HopHeaders[i] == "Transfer-Encoding";
        TransferEncodingCanonical();
      } else {
        assert HopHeaders[i] == "Upgrade";
        UpgradeCanonical();
      }
    }
  }

  /** The hop-by-hop names are tokens, so their case variants are tokens too. */
  lemma HopHeadersTokens()
    ensures forall i :: 0 <= i < |HopHeaders| ==> IsToken(HopHeaders[i])
  {
  }

  lemma ConnectionCanonical()
    ensures IsCanonical("Connection")
  {
    var s := "Connection";
    forall i | 0 <= i < |s|
      ensures IsTokenChar(s[i])
    {
    }
    CanonicalWhenCased(s);
  }

  lemma KeepAliveCanonical()
    ensures IsCanonical("Keep-Alive")
  {
    var s := "Keep-Alive";
    forall i | 0 <= i < |s|
      ensures IsTokenChar(s[i])
    {
    }
    CanonicalWhenCased(s);
  }

  lemma ProxyAuthenticateCanonical()
    ensures IsCanonical("Proxy-Authenticate")
  {
    var s := "Proxy-Authenticate";
    forall i | 0 <= i < |s|
      ensures IsTokenChar(s[i])
    {
    }
    assert CasedFrom(s, 12);
    assert CasedFrom(s, 6);
    CanonicalWhenCased(s);
  }

  lemma ProxyAuthorizationCanonical()
    ensures IsCanonical("Proxy-Authorization")
  {
    var s := "Proxy-Authorization";
    forall i | 0 <= i < |s|
      ensures IsTokenChar(s[i])
    {
    }
    assert CasedFrom(s, 12);
    assert CasedFrom(s, 6);
    CanonicalWhenCased(s);
  }

  lemma TeCanonical()
    ensures IsCanonical("Te")
  {
    var s := "Te";
    forall i | 0 <= i < |s|
      ensures IsTokenChar(s[i])
    {
    }
    CanonicalWhenCased(s);
  }

  lemma TrailersCanonical()
    ensures IsCanonical("Trailers")
  {
    var s := "Trailers";
    forall i | 0 <= i < |s|
      ensures IsTokenChar(s[i])
    {
    }
    CanonicalWhenCased(s);
  }

  lemma TransferEncodingCanonical()
    ensures IsCanonical("Transfer-Encoding")
  {
    var s := "Transfer-Encoding";
    forall i | 0 <= i < |s|
      ensures IsTokenChar(s[i])
    {
    }
    assert CasedFrom(s, 9);
    CanonicalWhenCased(s);
  }

  lemma UpgradeCanonical()
    ensures IsCanonical("Upgrade")
  {
    var s := "Upgrade";
    forall i | 0 <= i < |s|
      ensures IsTokenChar(s[i])
    {
    }
    CanonicalWhenCased(s);
  }

  /** "Te" is the canonical spelling of the `TE` header. */
  lemma TeIsCanonicalTE()
    ensures Canonical("TE") == "Te"
  {
    TeCanonical();
    CaseVariantsShareCanonical("TE", "Te");
  }

  lemma TrailerCanonical()
    ensures IsCanonical(TrailerName)
  {
    var s := TrailerName;
    forall i | 0 <= i < |s|
      ensures IsTokenChar(s[i])
    {
    }
    CanonicalWhenCased(s);
  }

  /** The corrected list is canonical and made of tokens as well. */
  lemma CorrectedHopHeadersCanonical()
    ensures forall i :: 0 <= i < |CorrectedHopHeaders| ==> IsCanonical(CorrectedHopHeaders[i])
    ensures forall i :: 0 <= i < |CorrectedHopHeaders| ==> IsToken(CorrectedHopHeaders[i])
  {
    HopHeadersCanonical();
    HopHeadersTokens();
    TrailerCanonical();
  }

  /** `Trailer` is not on the list the proxy strips. */
  lemma TrailerNotHop()
    ensures TrailerName !in HopHeaders
  {
    forall i | 0 <= i < |HopHeaders|
      ensures HopHeaders[i] != TrailerName
    {
      assert |HopHeaders[i]| != |TrailerName| || HopHeaders[i][0] != TrailerName[0];
    }
  }

  lemma ForwardedForCanonical()
    ensures IsCanonical(ForwardedFor)
  {
    var s := ForwardedFor;
    forall i | 0 <= i < |s|
      ensures IsTokenChar(s[i])
    {
    }
    assert CasedFrom(s, 10);
    assert CasedFrom(s, 2);
    CanonicalWhenCased(s);
  }

  lemma AuthorizationCanonical()
    ensures IsCanonical(AuthorizationName)
  {
    var s := AuthorizationName;
    forall i | 0 <= i < |s|
      ensures IsTokenChar(s[i])
    {
    }
    assert CasedFrom(s, 7);
    CanonicalWhenCased(s);
  }

  /** Authorization is neither X-Forwarded-For nor on either hop-by-hop list. */
  lemma AuthorizationSurvives()
    ensures AuthorizationName !in CorrectedHopHeaders && AuthorizationName != ForwardedFor
  {
    assert AuthorizationName[0] != ForwardedFor[0];
    forall i | 0 <= i < |CorrectedHopHeaders|
      ensures CorrectedHopHeaders[i] != AuthorizationName
    {
      assert |CorrectedHopHeaders[i]| != |AuthorizationName|;
    }
  }

  /** X-Forwarded-For is on neither hop-by-hop list. */
  lemma ForwardedForNotHop()
    ensures ForwardedFor !in CorrectedHopHeaders
  {
    forall i | 0 <= i < |CorrectedHopHeaders|
      ensures CorrectedHopHeaders[i] != ForwardedFor
    {
      assert |CorrectedHopHeaders[i]| != |ForwardedFor|;
    }
  }
}

=== FILE: proxy.dfy ===
/**
 * The forwarding handler, `proxy.ServeHTTP` in main.go: the rewrite of the
 * inbound request before it is sent to the backend, and the relay of the
 * backend's answer to the original caller.
 */
module Proxy {
  import opened Wrappers
  import opened Strings
  import opened Canon
  import opened HttpHeader
  import opened HeaderNames
  import opened Sanitizer

  /** The parts of a Go `url.URL` the proxy reads or writes. */
  datatype Url = Url(scheme: string, host: string, path: string, rawQuery: string)

  /**
   * An inbound request as the HTTP server hands it to the handler; `host` is
   * the Host header the request arrived with (Go's `Request.Host`), and the
   * body is its full contents.
   */
  datatype Request = Request(
    httpMethod: string,
    host: string,
    url: Url,
    requestUri: string,
    header: Header,
    body: string,
    remoteAddr: string)

  /** The handler's fixed state: the bearer token and the backend URL (only its scheme and host are used). */
  datatype Config = Config(authToken: string, backend: Url)

  /** A backend response. */
  datatype Response = Response(status: int, header: Header, body: string)

  /** The outcome of sending the rewritten request to the backend. */
  datatype DispatchResult = Ok(response: Response) | Err

  /** What the handler writes back to the original caller. */
  datatype Written = Written(status: int, header: Header, body: string)

  const BearerPrefix: string := "Bearer "
  const StatusInternalServerError: int := 500
  /** The body `http.Error` writes: the message and a line break. */
  const ServerErrorBody: string := "Server Error\n"

  /** Line 77: `Add`s the bearer credential, keeping any Authorization the caller sent. */
  function AttachToken(h: Header, token: string): (r: Header)
    ensures AuthorizationName in r && r[AuthorizationName] == Values(h, AuthorizationName) + [BearerPrefix + token]
    ensures forall k :: k != AuthorizationName ==> (k in r <==> k in h)
    ensures forall k :: k in h && k != AuthorizationName ==> r[k] == h[k]
  {
    AuthorizationCanonical();
    Add(h, AuthorizationName, BearerPrefix + token)
  }

  /**
   * A hop-by-hop list the handler can strip with: every name is canonical,
   * so `Del` removes exactly that key, and neither Authorization nor
   * X-Forwarded-For is on it. The source's list and the corrected one both
   * qualify (`HopListsQualify`).
   */
  predicate StripList(hops: seq<string>)
  {
    && (forall i :: 0 <= i < |hops| ==> IsCanonical(hops[i]))
    && AuthorizationName !in hops
    && ForwardedFor !in hops
  }

  lemma HopListsQualify()
    ensures StripList(HopHeaders) && StripList(CorrectedHopHeaders)
  {
    HopHeadersCanonical();
    CorrectedHopHeadersCanonical();
    AuthorizationSurvives();
    ForwardedForNotHop();
    assert forall k :: k in HopHeaders ==> k in CorrectedHopHeaders;
  }

  /**
   * Lines 79-83: strips the hop-by-hop headers `hops`, then folds
   * X-Forwarded-For when the client IP is known. No name of `hops` is left,
   * X-Forwarded-For changes only when the IP is known and then holds one
   * value, and every other header keeps its presence and values.
   */
  function SanitizeOutbound(h: Header, clientIP: Option<string>, hops: seq<string>): (r: Header)
    requires StripList(hops)
    ensures forall i :: 0 <= i < |hops| ==> hops[i] !in r
    ensures forall k :: k !in hops && k != ForwardedFor ==> (k in r <==> k in h) && Values(r, k) == Values(h, k)
    ensures clientIP.None? ==> (ForwardedFor in r <==> ForwardedFor in h) && Values(r, ForwardedFor) == Values(h, ForwardedFor)
    ensures clientIP.Some? ==> ForwardedFor in r && |r[ForwardedFor]| == 1
    ensures clientIP.Some? && ForwardedFor !in h ==> r[ForwardedFor] == [clientIP.value]
  {
    var stripped := StripNames(h, hops);
    match clientIP
    case Some(ip) => AppendHostToXForwardHeader(stripped, ip)
    case None => stripped
  }

  /**
   * Lines 72-83 of `ServeHTTP`: the request as it is handed to the HTTP
   * client. `clientIP` is what splitting the remote address yielded, `None`
   * when that failed; `hops` is the hop-by-hop list that is stripped
   * (`HopHeaders` in the source).
   */
  function RewriteRequest(req: Request, cfg: Config, clientIP: Option<string>, hops: seq<string>): (r: Request)
    requires StripList(hops)
    ensures r.httpMethod == req.httpMethod && r.body == req.body && r.remoteAddr == req.remoteAddr
    ensures r.host == req.host
    ensures r.url.path == req.url.path && r.url.rawQuery == req.url.rawQuery
    ensures r.url.scheme == cfg.backend.scheme && r.url.host == cfg.backend.host
    ensures r.requestUri == ""
  {
    var url := req.url.(scheme := cfg.backend.scheme, host := cfg.backend.host);
    var header := SanitizeOutbound(AttachToken(req.header, cfg.authToken), clientIP, hops);
    req.(requestUri := "", url := url, header := header)
  }

  /**
   * The rewritten request carries the caller's Authorization values followed
   * by the proxy's bearer credential: the credential is added before the
   * hop-by-hop headers are stripped, and Authorization is not one of them.
   */
  lemma RewriteAttachesToken(req: Request, cfg: Config, clientIP: Option<string>, hops: seq<string>)
    requires StripList(hops)
    ensures var r := RewriteRequest(req, cfg, clientIP, hops);
      AuthorizationName in r.header
      && r.header[AuthorizationName] == Values(req.header, AuthorizationName) + [BearerPrefix + cfg.authToken]
  {
    AuthorizationSurvives();
  }

  /** No name of `hops` is a key of the header map handed to the HTTP client, whatever the caller sent. */
  lemma RewriteStripsHopHeaders(req: Request, cfg: Config, clientIP: Option<string>, hops: seq<string>)
    requires StripList(hops)
    ensures var r := RewriteRequest(req, cfg, clientIP, hops);
      forall i :: 0 <= i < |hops| ==> hops[i] !in r.header
  {
  }

  /**
   * X-Forwarded-For is changed only when the client IP is known; then it
   * holds one value: the IP alone when there was no prior key, else the
   * prior values and the IP folded into one chain (which starts with the
   * separator when the prior key held no values).
   */
  lemma RewriteForwardedFor(req: Request, cfg: Config, clientIP: Option<string>, hops: seq<string>)
    requires StripList(hops)
    ensures var r := RewriteRequest(req, cfg, clientIP, hops);
      clientIP.None? ==>
        (ForwardedFor in r.header <==> ForwardedFor in req.header)
        && Values(r.header, ForwardedFor) == Values(req.header, ForwardedFor)
    ensures var r := RewriteRequest(req, cfg, clientIP, hops);
      clientIP.Some? ==> ForwardedFor in r.header && |r.header[ForwardedFor]| == 1
    ensures var r := RewriteRequest(req, cfg, clientIP, hops);
      clientIP.Some? && ForwardedFor !in req.header ==> r.header[ForwardedFor] == [clientIP.value]
    ensures var r := RewriteRequest(req, cfg, clientIP, hops);
      clientIP.Some? && ForwardedFor in req.header && req.header[ForwardedFor] != [] ==>
        r.header[ForwardedFor] == [Join(req.header[ForwardedFor] + [clientIP.value], ChainSep)]
    ensures var r := RewriteRequest(req, cfg, clientIP, hops);
      clientIP.Some? && ForwardedFor in req.header && req.header[ForwardedFor] == [] ==>
        r.header[ForwardedFor] == [ChainSep + clientIP.value]
  {
    AuthorizationSurvives();
    var withToken := AttachToken(req.header, cfg.authToken);
    var stripped := StripNames(withToken, hops);
    assert ForwardedFor in stripped <==> ForwardedFor in req.header;
    assert Values(stripped, ForwardedFor) == Values(req.header, ForwardedFor);
    if clientIP.Some? && ForwardedFor in req.header {
      ForwardedForChain(stripped, clientIP.value);
    }
  }

  /** Every header other than Authorization, X-Forwarded-For and the hop-by-hop ones passes through as it was. */
  lemma RewriteKeepsOtherHeaders(req: Request, cfg: Config, clientIP: Option<string>, hops: seq<string>)
    requires StripList(hops)
    ensures var r := RewriteRequest(req, cfg, clientIP, hops);
      forall k :: k !in hops && k != AuthorizationName && k != ForwardedFor ==>
        (k in r.header <==> k in req.header) && Values(r.header, k) == Values(req.header, k)
  {
  }

  /** The rewrite keeps every header key canonical. */
  lemma RewriteKeepsWellFormed(req: Request, cfg: Config, clientIP: Option<string>, hops: seq<string>)
    requires StripList(hops)
    requires WellFormed(req.header)
    ensures WellFormed(RewriteRequest(req, cfg, clientIP, hops).header)
  {
    AuthorizationCanonical();
    UpdatesKeepWellFormed(req.header, AuthorizationName, BearerPrefix + cfg.authToken);
  }

  /**
   * Lines 86-98 of `ServeHTTP`, after the dispatch: on a transport error the
   * caller gets status 500; otherwise the backend's hop-by-hop headers
   * (`hops`, `HopHeaders` in the source) are stripped, the rest are
   * `copyHeader`ed onto the writer's headers, and the backend's status and
   * body are passed through. The writer's own header values are never lost.
   * When the backend's header keys are canonical (Go's client canonicalises
   * them as it reads the response), no hop-by-hop value comes from the
   * backend and every other backend value is appended.
   */
  method RelayResponse(outcome: DispatchResult, writer: Header, hops: seq<string>) returns (w: Written)
    requires forall i :: 0 <= i < |hops| ==> IsCanonical(hops[i])
    ensures outcome.Err? ==>
      w.status == StatusInternalServerError && w.header == writer && w.body == ServerErrorBody
    ensures outcome.Ok? ==> w.status == outcome.response.status && w.body == outcome.response.body
    ensures outcome.Ok? ==> forall k :: k in writer ==> k in w.header && writer[k] <= w.header[k]
    ensures outcome.Ok? && WellFormed(outcome.response.header) ==>
      forall i :: 0 <= i < |hops| ==>
        (hops[i] in w.header <==> hops[i] in writer) && Values(w.header, hops[i]) == Values(writer, hops[i])
    ensures outcome.Ok? && WellFormed(outcome.response.header) ==>
      forall k :: k !in hops ==> Values(w.header, k) == Values(writer, k) + Values(outcome.response.header, k)
  {
    match outcome
    case Err =>
      w := Written(StatusInternalServerError, writer, ServerErrorBody);
    case Ok(resp) =>
      var stripped := StripNames(resp.header, hops);
      var relayed := CopyHeader(writer, stripped);
      if WellFormed(resp.header) {
        RelayedHopHeaders(writer, resp.header, relayed, hops);
        RelayedEndToEndHeaders(writer, resp.header, relayed, hops);
      }
      w := Written(resp.status, relayed, resp.body);
  }

  /** Copying the stripped backend headers leaves the writer's hop-by-hop values as they were. */
  lemma RelayedHopHeaders(writer: Header, backend: Header, relayed: Header, hops: seq<string>)
    requires forall i :: 0 <= i < |hops| ==> IsCanonical(hops[i])
    requires forall k :: k in relayed <==> k in writer || (k in StripNames(backend, hops) && StripNames(backend, hops)[k] != [])
    requires forall k :: Values(relayed, k) == Values(writer, k) + Values(StripNames(backend, hops), k)
    ensures forall i :: 0 <= i < |hops| ==>
      (hops[i] in relayed <==> hops[i] in writer) && Values(relayed, hops[i]) == Values(writer, hops[i])
  {
    var stripped := StripNames(backend, hops);
    forall i | 0 <= i < |hops|
      ensures hops[i] !in stripped
    {
    }
  }

  /** Copying the stripped backend headers appends every backend value that is not hop-by-hop. */
  lemma RelayedEndToEndHeaders(writer: Header, backend: Header, relayed: Header, hops: seq<string>)
    requires forall i :: 0 <= i < |hops| ==> IsCanonical(hops[i])
    requires forall k :: Values(relayed, k) == Values(writer, k) + Values(StripNames(backend, hops), k)
    ensures forall k :: k !in hops ==> Values(relayed, k) == Values(writer, k) + Values(backend, k)
  {
    var stripped := StripNames(backend, hops);
    forall k | k !in hops
      ensures Values(stripped, k) == Values(backend, k)
    {
    }
  }

  /**
   * What lines 72-83 promise of the request handed to the HTTP client when
   * `hops` is stripped: the target is the backend, everything else about
   * the request is kept, the bearer credential follows the caller's own
   * Authorization values, no stripped name is left, X-Forwarded-For is
   * folded when the client IP is known, and every other header passes
   * through as it was.
   */
  ghost predicate RewrittenAs(req: Request, cfg: Config, clientIP: Option<string>, hops: seq<string>, sent: Request)
  {
    && sent.httpMethod == req.httpMethod && sent.host == req.host
    && sent.body == req.body && sent.remoteAddr == req.remoteAddr
    && sent.url == Url(cfg.backend.scheme, cfg.backend.host, req.url.path, req.url.rawQuery)
    && sent.requestUri == ""
    && AuthorizationName in sent.header
    && sent.header[AuthorizationName] == Values(req.header, AuthorizationName) + [BearerPrefix + cfg.authToken]
    && (forall i :: 0 <= i < |hops| ==> hops[i] !in sent.header)
    && (forall k :: k !in hops && k != AuthorizationName && k != ForwardedFor ==>
          (k in sent.header <==> k in req.header) && Values(sent.header, k) == Values(req.header, k))
    && (clientIP.None? ==>
          (ForwardedFor in sent.header <==> ForwardedFor in req.header)
          && Values(sent.header, ForwardedFor) == Values(req.header, ForwardedFor))
    && (clientIP.Some? ==> ForwardedFor in sent.header && |sent.header[ForwardedFor]| == 1)
    && (clientIP.Some? && ForwardedFor !in req.header ==> Values(sent.header, ForwardedFor) == [clientIP.value])
    && (clientIP.Some? && ForwardedFor in req.header && req.header[ForwardedFor] != [] ==>
          Values(sent.header, ForwardedFor) == [Join(req.header[ForwardedFor] + [clientIP.value], ChainSep)])
    && (clientIP.Some? && ForwardedFor in req.header && req.header[ForwardedFor] == [] ==>
          Values(sent.header, ForwardedFor) == [ChainSep + clientIP.value])
  }

  /** The rewrite meets every promise of lines 72-83 at once. */
  lemma RewriteMeetsPromises(req: Request, cfg: Config, clientIP: Option<string>, hops: seq<string>)
    requires StripList(hops)
    ensures RewrittenAs(req, cfg, clientIP, hops, RewriteRequest(req, cfg, clientIP, hops))
  {
    RewriteAttachesToken(req, cfg, clientIP, hops);
    RewriteStripsHopHeaders(req, cfg, clientIP, hops);
    RewriteForwardedFor(req, cfg, clientIP, hops);
    RewriteKeepsOtherHeaders(req, cfg, clientIP, hops);
  }

  /**
   * What lines 86-98 promise of the answer written to the caller when
   * `hops` is stripped from the backend's headers: on a dispatch error
   * status 500, the error body and the writer's headers as they were;
   * otherwise the backend's status and body, no writer value lost, and,
   * for canonical backend keys, the writer's own values under each stripped
   * name and the writer's values followed by the backend's under every
   * other name.
   */
  ghost predicate RelayedAs(outcome: DispatchResult, writer: Header, hops: seq<string>, w: Written)
  {
    && (outcome.Err? ==> w == Written(StatusInternalServerError, writer, ServerErrorBody))
    && (outcome.Ok? ==> w.status == outcome.response.status && w.body == outcome.response.body)
    && (outcome.Ok? ==> forall k :: k in writer ==> k in w.header && writer[k] <= w.header[k])
    && (outcome.Ok? && WellFormed(outcome.response.header) ==>
          forall i :: 0 <= i < |hops| ==>
            (hops[i] in w.header <==> hops[i] in writer) && Values(w.header, hops[i]) == Values(writer, hops[i]))
    && (outcome.Ok? && WellFormed(outcome.response.header) ==>
          forall k :: k !in hops ==> Values(w.header, k) == Values(writer, k) + Values(outcome.response.header, k))
  }

  /**
   * `ServeHTTP` as written: the source's eight hop-by-hop names are
   * stripped on the way out and on the way back, and the request and answer
   * meet every promise of lines 72-98. The dispatch itself is the input
   * `outcome`. Because the source's list spells the trailer header
   * "Trailers", the header map handed to the HTTP client keeps `Trailer`,
   * and the writer's header map receives the backend's `Trailer` values.
   */
  method ServeHttp(req: Request, cfg: Config, clientIP: Option<string>, outcome: DispatchResult, writer: Header)
    returns (sent: Request, w: Written)
    ensures RewrittenAs(req, cfg, clientIP, HopHeaders, sent)
    ensures RelayedAs(outcome, writer, HopHeaders, w)
    ensures (TrailerName in sent.header <==> TrailerName in req.header)
      && Values(sent.header, TrailerName) == Values(req.header, TrailerName)
    ensures outcome.Ok? && WellFormed(outcome.response.header) ==>
      Values(w.header, TrailerName) == Values(writer, TrailerName) + Values(outcome.response.header, TrailerName)
  {
    HopListsQualify();
    TrailerIsEndToEndAsWritten();
    sent := RewriteRequest(req, cfg, clientIP, HopHeaders);
    RewriteMeetsPromises(req, cfg, clientIP, HopHeaders);
    w := RelayResponse(outcome, writer, HopHeaders);
  }

  /** `Trailer` is neither on the source's list nor one of the two headers the rewrite changes. */
  lemma TrailerIsEndToEndAsWritten()
    ensures TrailerName !in HopHeaders && TrailerName != AuthorizationName && TrailerName != ForwardedFor
  {
    TrailerNotHop();
    assert |TrailerName| != |AuthorizationName| && |TrailerName| != |ForwardedFor|;
  }

  /**
   * `ServeHTTP` with the corrected hop-by-hop list: the same promises over
   * the nine names, so `Trailer` is neither handed to the HTTP client nor
   * taken from the backend's answer.
   */
  method ServeHttpCorrected(req: Request, cfg: Config, clientIP: Option<string>, outcome: DispatchResult, writer: Header)
    returns (sent: Request, w: Written)
    ensures RewrittenAs(req, cfg, clientIP, CorrectedHopHeaders, sent)
    ensures RelayedAs(outcome, writer, CorrectedHopHeaders, w)
    ensures TrailerName !in sent.header
    ensures outcome.Ok? && WellFormed(outcome.response.header) ==>
      Values(w.header, TrailerName) == Values(writer, TrailerName)
  {
    HopListsQualify();
    assert CorrectedHopHeaders[|HopHeaders|] == TrailerName;
    sent := RewriteRequest(req, cfg, clientIP, CorrectedHopHeaders);
    RewriteMeetsPromises(req, cfg, clientIP, CorrectedHopHeaders);
    w := RelayResponse(outcome, writer, CorrectedHopHeaders);
  }

  /**
   * A backend answering 201 with a custom header and a `Transfer-Encoding`
   * is written with status 201, the custom header and no
   * `Transfer-Encoding` in the writer's header map, and the same body.
   */
  method RelayExample() returns (w: Written)
    ensures w.status == 201 && w.body == "hello"
    ensures Values(w.header, "X-Custom") == ["v"]
    ensures "Transfer-Encoding" !in w.header
  {
    XCustomCanonical();
    TransferEncodingCanonical();
    var backend := map["X-Custom" := ["v"], "Transfer-Encoding" := ["chunked"]];
    assert WellFormed(backend);
    HopHeadersCanonical();
    assert HopHeaders[6] == "Transfer-Encoding";
    w := RelayResponse(Ok(Response(201, backend, "hello")), map[], HopHeaders);
  }

  lemma XCustomCanonical()
    ensures IsCanonical("X-Custom")
  {
    CanonicalWhenCased("X-Custom");
  }
}

=== FILE: sanitizer.dfy ===
/**
 * The header sanitiser of the proxy (main.go): `delHopHeaders`,
 * `appendHostToXForwardHeader` and `copyHeader`.
 */
module Sanitizer {
  import opened Strings
  import opened Canon
  import opened HttpHeader
  import opened HeaderNames

  /** The separator the forwarded-for chain uses between addresses. */
  const ChainSep: string := ", "

  /** The canonical forms of `names`. */
  function CanonicalNames(names: seq<string>): (r: set<string>)
  {
    set n | n in names :: Canonical(n)
  }

  /** Deleting `names` one after another, as the loop of `delHopHeaders` does. */
  function DelAll(h: Header, names: seq<string>): (r: Header)
    ensures r == h - CanonicalNames(names)
    decreases |names|
  {
    if |names| == 0 then h
    else
      assert CanonicalNames(names) == {Canonical(names[0])} + CanonicalNames(names[1..]) by {
        assert names == [names[0]] + names[1..];
      }
      DelAll(Del(h, names[0]), names[1..])
  }

  /**
   * Deleting a list of canonical names: exactly those keys go, and every
   * other key keeps exactly its value sequence.
   */
  function StripNames(h: Header, names: seq<string>): (r: Header)
    requires forall i :: 0 <= i < |names| ==> IsCanonical(names[i])
    ensures forall i :: 0 <= i < |names| ==> names[i] !in r
    ensures forall k :: k in r <==> k in h && k !in names
    ensures forall k :: k in r ==> r[k] == h[k]
    ensures WellFormed(h) ==> WellFormed(r)
  {
    assert CanonicalNames(names) == set n | n in names by {
      forall x | x in CanonicalNames(names)
        ensures x in names
      {
        var n :| n in names && Canonical(n) == x;
        var i :| 0 <= i < |names| && names[i] == n;
        assert IsCanonical(names[i]);
      }
      forall x | x in names
        ensures x in CanonicalNames(names)
      {
        var i :| 0 <= i < |names| && names[i] == x;
        assert IsCanonical(names[i]);
      }
    }
    DelAll(h, names)
  }

  /**
   * `delHopHeaders` as written: deletes the eight names of the source's
   * list; no such key is left and every other key keeps its values.
   */
  function DelHopHeaders(h: Header): (r: Header)
    ensures forall i :: 0 <= i < |HopHeaders| ==> HopHeaders[i] !in r
    ensures forall k :: k in r <==> k in h && k !in HopHeaders
    ensures forall k :: k in r ==> r[k] == h[k]
    ensures WellFormed(h) ==> WellFormed(r)
  {
    HopHeadersCanonical();
    StripNames(h, HopHeaders)
  }

  /**
   * `delHopHeaders` over the corrected list: the same deletions, and the
   * `Trailer` header goes as well.
   */
  function DelHopHeadersCorrected(h: Header): (r: Header)
    ensures forall i :: 0 <= i < |CorrectedHopHeaders| ==> CorrectedHopHeaders[i] !in r
    ensures forall k :: k in r <==> k in h && k !in CorrectedHopHeaders
    ensures forall k :: k in r ==> r[k] == h[k]
    ensures WellFormed(h) ==> WellFormed(r)
  {
    CorrectedHopHeadersCanonical();
    StripNames(h, CorrectedHopHeaders)
  }

  /** The corrected stripping differs from the source's only in also deleting `Trailer`. */
  lemma CorrectedOnlyAddsTrailer(h: Header)
    ensures forall k :: k in DelHopHeadersCorrected(h) <==> k in DelHopHeaders(h) && k != TrailerName
  {
    var r := DelHopHeadersCorrected(h);
    forall k
      ensures k in CorrectedHopHeaders <==> k in HopHeaders || k == TrailerName
    {
      assert CorrectedHopHeaders[|HopHeaders|] == TrailerName;
      if k in HopHeaders {
        var i :| 0 <= i < |HopHeaders| && HopHeaders[i] == k;
        assert CorrectedHopHeaders[i] == k;
      }
    }
  }

  /**
   * The source's list spells the trailer header "Trailers", so a header map
   * holding a `Trailer` key still holds it after `delHopHeaders`; the
   * corrected list removes it.
   */
  lemma TrailerPassesThroughAsWritten()
    ensures TrailerName in DelHopHeaders(map[TrailerName := ["Expires"]])
    ensures TrailerName !in DelHopHeadersCorrected(map[TrailerName := ["Expires"]])
  {
    TrailerNotHop();
    assert CorrectedHopHeaders[|HopHeaders|] == TrailerName;
  }

  /** Stripping the same names a second time changes nothing. */
  lemma StripNamesIdempotent(h: Header, names: seq<string>)
    requires forall i :: 0 <= i < |names| ==> IsCanonical(names[i])
    ensures StripNames(StripNames(h, names), names) == StripNames(h, names)
  {
    var once := StripNames(h, names);
    assert StripNames(once, names).Keys == once.Keys;
  }

  /** Stripping hop-by-hop headers a second time changes nothing, on either list. */
  lemma DelHopHeadersIdempotent(h: Header)
    ensures DelHopHeaders(DelHopHeaders(h)) == DelHopHeaders(h)
    ensures DelHopHeadersCorrected(DelHopHeadersCorrected(h)) == DelHopHeadersCorrected(h)
  {
    HopHeadersCanonical();
    StripNamesIdempotent(h, HopHeaders);
    CorrectedHopHeadersCanonical();
    StripNamesIdempotent(h, CorrectedHopHeaders);
  }

  /**
   * In a header whose keys are canonical, once a list of canonical tokens
   * is stripped no key is a case variant of any name on it.
   */
  lemma NoVariantRemains(h: Header, names: seq<string>)
    requires WellFormed(h)
    requires forall i :: 0 <= i < |names| ==> IsCanonical(names[i])
    requires forall i :: 0 <= i < |names| ==> IsToken(names[i])
    ensures forall k, i :: k in StripNames(h, names) && 0 <= i < |names| ==> !SameIgnoringCase(k, names[i])
  {
    var r := StripNames(h, names);
    forall k, i | k in r && 0 <= i < |names|
      ensures !SameIgnoringCase(k, names[i])
    {
      CaseVariantsShareCanonical(k, names[i]);
    }
  }

  /** No case variant of the eight names survives `delHopHeaders`, nor of the nine the corrected one strips. */
  lemma NoHopHeaderVariantRemains(h: Header)
    requires WellFormed(h)
    ensures forall k, i :: k in DelHopHeaders(h) && 0 <= i < |HopHeaders| ==> !SameIgnoringCase(k, HopHeaders[i])
    ensures forall k, i :: k in DelHopHeadersCorrected(h) && 0 <= i < |CorrectedHopHeaders| ==>
      !SameIgnoringCase(k, CorrectedHopHeaders[i])
  {
    HopHeadersCanonical();
    HopHeadersTokens();
    NoVariantRemains(h, HopHeaders);
    CorrectedHopHeadersCanonical();
    NoVariantRemains(h, CorrectedHopHeaders);
  }

  /**
   * `appendHostToXForwardHeader`: afterwards there is exactly one
   * X-Forwarded-For value, and it is `host` alone when there was no prior
   * key. Every other key is left alone.
   */
  function AppendHostToXForwardHeader(h: Header, host: string): (r: Header)
    ensures ForwardedFor in r && |r[ForwardedFor]| == 1
    ensures ForwardedFor !in h ==> r[ForwardedFor] == [host]
    ensures forall k :: k != ForwardedFor ==> (k in r <==> k in h)
    ensures forall k :: k in h && k != ForwardedFor ==> r[k] == h[k]
    ensures WellFormed(h) ==> WellFormed(r)
  {
    ForwardedForCanonical();
    var value := if ForwardedFor in h then Join(h[ForwardedFor], ChainSep) + ChainSep + host else host;
    UpdatesKeepWellFormed(h, ForwardedFor, value);
    Set(h, ForwardedFor, value)
  }

  /**
   * With prior X-Forwarded-For values the single value left is the whole
   * chain, prior values in order and then `host`, joined by ", ". A prior
   * key holding no values still counts as present, so the chain then starts
   * with the separator.
   */
  lemma ForwardedForChain(h: Header, host: string)
    requires ForwardedFor in h
    ensures h[ForwardedFor] != [] ==>
      AppendHostToXForwardHeader(h, host)[ForwardedFor] == [Join(h[ForwardedFor] + [host], ChainSep)]
    ensures h[ForwardedFor] == [] ==>
      AppendHostToXForwardHeader(h, host)[ForwardedFor] == [ChainSep + host]
  {
    var prior := h[ForwardedFor];
    assert AppendHostToXForwardHeader(h, host)[ForwardedFor] == [Join(prior, ChainSep) + ChainSep + host] by {
      ForwardedForCanonical();
    }
    if prior != [] {
      JoinSnoc(prior, host, ChainSep);
    } else {
      assert Join(prior, ChainSep) == "";
      assert "" + ChainSep + host == ChainSep + host;
    }
  }

  /** First proxy in the chain: the value is the client address alone. */
  lemma ForwardedForFirstHopExample()
    ensures AppendHostToXForwardHeader(map[], "203.0.113.5")[ForwardedFor] == ["203.0.113.5"]
  {
  }

  /** One prior address: the client address is appended after ", ". */
  lemma ForwardedForChainedExample()
    ensures AppendHostToXForwardHeader(map[ForwardedFor := ["10.0.0.1"]], "203.0.113.5")[ForwardedFor]
      == ["10.0.0.1" + ", " + "203.0.113.5"]
  {
    var h := map[ForwardedFor := ["10.0.0.1"]];
    ForwardedForChain(h, "203.0.113.5");
    assert h[ForwardedFor] + ["203.0.113.5"] == ["10.0.0.1", "203.0.113.5"];
    assert Join(["203.0.113.5"], ChainSep) == "203.0.113.5";
  }

  /** Two prior header instances are folded into one value ahead of the client address. */
  lemma ForwardedForMultiInstanceExample()
    ensures AppendHostToXForwardHeader(map[ForwardedFor := ["10.0.0.1", "10.0.0.2"]], "203.0.113.5")[ForwardedFor]
      == ["10.0.0.1" + ", " + "10.0.0.2" + ", " + "203.0.113.5"]
  {
    var h := map[ForwardedFor := ["10.0.0.1", "10.0.0.2"]];
    ForwardedForChain(h, "203.0.113.5");
    var chain := ["10.0.0.1", "10.0.0.2", "203.0.113.5"];
    assert h[ForwardedFor] + ["203.0.113.5"] == chain;
    assert chain[1..][1..] == ["203.0.113.5"];
    assert Join(chain[1..][1..], ChainSep) == "203.0.113.5";
    assert Join(chain[1..], ChainSep) == "10.0.0.2" + ", " + "203.0.113.5";
  }

  /** `Add` of each value of `vs` under `name`, in order. */
  function AddValues(h: Header, name: string, vs: seq<string>): (r: Header)
  {
    if vs == [] then h else h[Canonical(name) := Values(h, Canonical(name)) + vs]
  }

  /** One more `Add` extends the values added so far by that one value. */
  lemma AddValuesStep(h: Header, name: string, vs: seq<string>, v: string)
    ensures Add(AddValues(h, name, vs), name, v) == AddValues(h, name, vs + [v])
  {
    var key := Canonical(name);
    if vs == [] {
      assert vs + [v] == [v];
    } else {
      assert (Values(h, key) + vs) + [v] == Values(h, key) + (vs + [v]);
    }
  }

  /** Adding values keeps every key and every earlier value, and keeps keys canonical. */
  lemma AddValuesKeeps(h: Header, name: string, vs: seq<string>)
    ensures forall k :: k in h ==> k in AddValues(h, name, vs) && h[k] <= AddValues(h, name, vs)[k]
    ensures vs != [] ==> Canonical(name) in AddValues(h, name, vs)
    ensures WellFormed(h) ==> WellFormed(AddValues(h, name, vs))
  {
    CanonicalIdempotent(name);
  }

  /** The inner loop of `copyHeader`: `Add`s the values of one source key in order. */
  method AddEach(h: Header, name: string, vs: seq<string>) returns (r: Header)
    ensures r == AddValues(h, name, vs)
  {
    r := h;
    var i := 0;
    while i < |vs|
      invariant 0 <= i <= |vs|
      invariant r == AddValues(h, name, vs[..i])
    {
      AddValuesStep(h, name, vs[..i], vs[i]);
      assert vs[..i + 1] == vs[..i] + [vs[i]];
      r := Add(r, name, vs[i]);
      i := i + 1;
    }
    assert vs[..i] == vs;
  }

  /**
   * `copyHeader`: `Add`s every value of every source key onto the
   * destination, visiting the source keys in an order the model leaves open
   * (Go's map iteration order is unspecified). Destination values are never
   * dropped or overwritten, and every non-empty source key ends up present.
   * When the source keys are canonical the order of visits cannot matter:
   * each key ends with the destination's values followed by the source's,
   * and a source key with no values adds nothing.
   */
  method CopyHeader(dst: Header, src: Header) returns (r: Header)
    ensures forall k :: k in dst ==> k in r && dst[k] <= r[k]
    ensures forall k :: k in src && src[k] != [] ==> Canonical(k) in r
    ensures WellFormed(dst) ==> WellFormed(r)
    ensures WellFormed(src) ==> forall k :: k in r <==> k in dst || (k in src && src[k] != [])
    ensures WellFormed(src) ==> forall k :: k in r ==> r[k] == Values(dst, k) + Values(src, k)
    ensures WellFormed(src) ==> forall k :: Values(r, k) == Values(dst, k) + Values(src, k)
  {
    r := dst;
    var todo := src.Keys;
    while todo != {}
      invariant todo <= src.Keys
      invariant forall k :: k in dst ==> k in r && dst[k] <= r[k]
      invariant forall k :: k in src && k !in todo && src[k] != [] ==> Canonical(k) in r
      invariant WellFormed(dst) ==> WellFormed(r)
      invariant WellFormed(src) ==>
        forall k :: k in r <==> k in dst || (k in src && k !in todo && src[k] != [])
      invariant WellFormed(src) ==>
        forall k :: k in r ==> r[k] == Values(dst, k) + (if k in todo then [] else Values(src, k))
      decreases todo
    {
      var k :| k in todo;
      AddValuesKeeps(r, k, src[k]);
      r := AddEach(r, k, src[k]);
      todo := todo - {k};
    }
  }
}

=== FILE: strings.dfy ===
/**
 * The string helpers the proxy relies on: ASCII case mapping (the only
 * case mapping header names need) and Go's `strings.Join`.
 */
module Strings {

  /** Maps an ASCII upper-case letter to lower case; every other character is kept. */
  function LowerChar(c: char): (r: char)
  {
    if 'A' <= c <= 'Z' then (c as int + 32) as char else c
  }

  /** Maps an ASCII lower-case letter to upper case; every other character is kept. */
  function UpperChar(c: char): (r: char)
  {
    if 'a' <= c <= 'z' then (c as int - 32) as char else c
  }

  /** Two strings are case variants of each other: equal once ASCII letters are folded. */
  predicate SameIgnoringCase(a: string, b: string)
  {
    |a| == |b| && forall i :: 0 <= i < |a| ==> LowerChar(a[i]) == LowerChar(b[i])
  }

  /**
   * Go's `strings.Join`: the elements in order with `sep` between each
   * neighbouring pair; the empty list joins to the empty string.
   */
  function Join(elems: seq<string>, sep: string): (r: string)
    decreases |elems|
  {
    if |elems| == 0 then ""
    else if |elems| == 1 then elems[0]
    else elems[0] + sep + Join(elems[1..], sep)
  }

  /** Joining one more element onto a non-empty list appends the separator and that element. */
  lemma {:induction false} JoinSnoc(elems: seq<string>, last: string, sep: string)
    requires |elems| > 0
    ensures Join(elems + [last], sep) == Join(elems, sep) + sep + last
    decreases |elems|
  {
    if |elems| == 1 {
      assert elems + [last] == [elems[0], last];
      assert (elems + [last])[1..] == [last];
    } else {
      var rest := elems[1..];
      assert (elems + [last])[1..] == rest + [last];
      JoinSnoc(rest, last, sep);
    }
  }

  /** Upper-casing depends only on the folded character. */
  lemma UpperOfLower(c: char)
    ensures UpperChar(LowerChar(c)) == UpperChar(c)
    ensures LowerChar(UpperChar(c)) == LowerChar(c)
    ensures LowerChar(LowerChar(c)) == LowerChar(c)
    ensures UpperChar(UpperChar(c)) == UpperChar(c)
  {
  }
}

=== FILE: wrappers.dfy ===
/** Optional values, used for inputs the proxy may or may not have. */
module Wrappers {

  /** A value that may be absent, such as a client IP that could not be parsed. */
  datatype Option<+T> = None | Some(value: T)
}
